=== FILE: README.md ===
# excalidraw-board in Dafny

This project models the sequential logic of excalidraw-board, a collaborative whiteboard
with a post board. Every part is a pure transition function over an explicit state. The
files written, the socket events emitted and the HTTP answers sent become return values.

- `post_store.dfy` (module `PostStore`) models the REST handlers of `backend/server.mjs`
  (list, detail, create, update, delete) as operations on the persisted document
  `{posts, lastId}`. Each returns the new document and the response (status and body).
  It proves the invariant that every reachable document keeps:
  - post ids strictly decrease from front to back (newest first);
  - every id is positive;
  - `lastId` equals the head post's id, or 0 when there are no posts.

  It also proves per-operation frame properties, that an unknown id leaves the document
  untouched, that deletion agrees with a reference filter, and that ids can be reused
  after the newest post is deleted.
- `js_map.dfy` (module `JsMap`) models a JavaScript `Map` as an insertion-ordered list of
  unique keys. `Map.set` and `Map.delete` are proved equal to map update and key removal
  on the `map` view, and both keep keys unique. `set` keeps the order of the keys already
  present, and `delete` cuts one entry out and keeps the others in order.
- `collaboration.dfy` (module `Collaboration`) models the client side of
  `CollaborativeExcalidraw.jsx`:
  - the socket handlers (`connect`, `disconnect`, `canvasState`, `elementsUpdated`,
    `pointerUpdated`, `userLeft`);
  - the gating of the outgoing `updateElements` and `pointerUpdate`;
  - the `collaborators` array handed to the canvas.

  After any run of events, the connected flag and the scene are decided by the last
  connection event and the last scene received.
- `chat_window.dfy` (module `ChatWindow`) models the chat panel of `ChatWindow.jsx` as a
  state machine: receive, send with the blank check of `String.prototype.trim`,
  open/close/minimize, and the drag with its clamped position. It proves that the unread
  badge is zero while open, never exceeds the message count, and counts every message
  that arrives while closed.
- `nickname.dfy` (module `Nickname`) models `generateNickname` with the two random draws
  as index parameters. It proves:
  - exactly one space in every nickname;
  - a decoder that recovers the draw;
  - injectivity;
  - exactly 225 distinct nicknames.
- `wrappers.dfy` (module `Wrappers`) defines `Option`.

Some facts about the code that the model depends on:
- The client emits `joinRoom` with the bare room id (`CollaborativeExcalidraw.jsx:19`).
- The `elementsUpdated` handler passes its argument straight to `updateScene` as the
  element list (`CollaborativeExcalidraw.jsx:36-40`).
- `updateElements` and `pointerUpdate` carry the room id and the payload and no nickname
  (`CollaborativeExcalidraw.jsx:73`, `79-82`).
- `backend/server.mjs` serves only REST routes. Room membership, presence and the relaying
  of socket events are in no modelled file, so messages and scenes simply arrive as events.

## Model

| member | source | states |
|---|---|---|
| PostStore.FindIndex | backend/server.mjs:112-115 | None exactly when no post carries the id (the -1 that leads to 404); otherwise an index holding the id with no earlier post holding it, i.e. the first match that `findIndex` and `find` pick |
| PostStore.FindIndexUnique | backend/server.mjs:53 | in a newest-first list the lookup of an id present at position k returns k |
| PostStore.OnlyMatch | backend/server.mjs:53 | in a newest-first list the matched position is the only one carrying the id, so no other post is touched |
| PostStore.ListPosts | backend/server.mjs:37-46 | answers 200 with the stored posts in stored order and writes nothing |
| PostStore.GetPost | backend/server.mjs:49-68 | 404 exactly when the id is absent, and then the document is unchanged; otherwise `lastId` is rewritten to the head id; on a valid document exactly the matching post gets views + 1, every other post and field is unchanged, validity and `lastId` are kept, and the answer is 200 with the updated post |
| PostStore.CreatePost | backend/server.mjs:71-101 | the new post goes to index 0 with id `lastId + 1`, zero views, no edit time and the given fields; older posts keep their order; `lastId` becomes the new id; answers 201 with the post; on a valid document the id is fresh and validity is kept |
| PostStore.UpdatePost | backend/server.mjs:105-135 | 404 and no change exactly when the id is absent; on a valid document the matching post keeps id, views, date and position, takes the new title, author and content and gets `updatedAt`; every other post is unchanged; validity and `lastId` are kept |
| PostStore.DeletePost | backend/server.mjs:139-164 | 404 and no change exactly when the id is absent; otherwise the first post carrying the id is spliced out and the others keep their order, `lastId` equals the new head id (or 0), and the answer is the deletion message; validity is kept |
| PostStore.WithoutMembers | backend/server.mjs:145-151 | the reference deletion keeps a post iff it was present and carries another id |
| PostStore.SpliceIsWithout | backend/server.mjs:145-151 | splicing out the first match of a newest-first list equals the reference filter that drops every post with that id |
| PostStore.WithoutAbsent | backend/server.mjs:146-148 | filtering out an id nobody carries leaves the list as it was |
| PostStore.DeleteRemovesExactly | backend/server.mjs:145-157 | on a valid document deletion leaves exactly the other posts in their order, and the id no longer occurs |
| PostStore.ReplayKeepsValid | backend/server.mjs:37-164 | any sequence of requests keeps ids newest-first and positive and `lastId` equal to the head id |
| PostStore.ReachableIsValid | backend/server.mjs:28-34 | every document reachable from the initial `{posts: [], lastId: 0}` is valid |
| PostStore.DeleteUndoesCreate | backend/server.mjs:77-157 | on a valid document, deleting the post just created restores the previous document exactly |
| PostStore.DeleteNewestRewindsIds | backend/server.mjs:151-157 | deleting the head post sets `lastId` to the next post's id (or 0); the next create hands out an id no larger than the deleted one, equal to it exactly when the deleted id was one above its successor |
| PostStore.IdReusedAfterDelete | backend/server.mjs:78-93 | from the initial document: create, delete it, create again, and the second post also gets id 1 |
| JsMap.Keys | frontend-react/src/components/CollaborativeExcalidraw.jsx:91 | the Map's keys in iteration order, one per entry |
| JsMap.Get | frontend-react/src/components/CollaborativeExcalidraw.jsx:91-93 | a lookup finds nothing exactly when the key is absent, and otherwise returns a value stored under that key |
| JsMap.Set | frontend-react/src/components/CollaborativeExcalidraw.jsx:45 | `set` keeps the key order when the key is present and appends the key last when it is new |
| JsMap.Delete | frontend-react/src/components/CollaborativeExcalidraw.jsx:52-53 | `delete` of an absent key changes nothing; of a present key it removes one entry and introduces no key |
| JsMap.DeleteIsSplice | frontend-react/src/components/CollaborativeExcalidraw.jsx:52-53 | `delete` of a present key cuts out the first entry with that key and keeps every other entry in iteration order |
| JsMap.SetGet | frontend-react/src/components/CollaborativeExcalidraw.jsx:45 | after `set` the key reads back the new value and every other key reads as before |
| JsMap.DeleteGet | frontend-react/src/components/CollaborativeExcalidraw.jsx:52-53 | after `delete` every other key reads as before and, with unique keys, the deleted key reads as absent |
| JsMap.SetKeepsKeysUnique | frontend-react/src/components/CollaborativeExcalidraw.jsx:45 | on a list with unique keys, `set` keeps every key unique |
| JsMap.DeleteKeepsKeysUnique | frontend-react/src/components/CollaborativeExcalidraw.jsx:52-53 | on a list with unique keys, `delete` keeps them unique and the deleted key is gone |
| JsMap.ToMapAgrees | frontend-react/src/components/CollaborativeExcalidraw.jsx:8 | the list and its `map` view hold the same keys, and lookups agree |
| JsMap.SetAsMap | frontend-react/src/components/CollaborativeExcalidraw.jsx:45 | on the map view `set` is map update `m[k := v]` |
| JsMap.DeleteAsMap | frontend-react/src/components/CollaborativeExcalidraw.jsx:51-55 | with unique keys, on the map view `delete` is key removal `m - {k}` |
| Collaboration.Mount | frontend-react/src/components/CollaborativeExcalidraw.jsx:8-9 | the component starts disconnected, so it may not send, with an empty collaborators Map (no collaborators rendered) and an empty scene |
| Collaboration.ShowScene | frontend-react/src/components/CollaborativeExcalidraw.jsx:30-32 | with the canvas API present the scene becomes the received elements, whole; without it nothing changes |
| Collaboration.Receive | frontend-react/src/components/CollaborativeExcalidraw.jsx:12-67 | with an empty room id nothing happens; `connect` sets connected and emits `joinRoom` with the room id; `disconnect` clears connected; only `connect` emits; scenes are replaced wholesale (when the API is present); each event leaves the other parts of the state alone; unique keys are kept |
| Collaboration.PointerUpdatedSetsEntry | frontend-react/src/components/CollaborativeExcalidraw.jsx:44-46 | `pointerUpdated` maps the user to the pointer and leaves every other entry; a known user keeps their place and a new one goes last |
| Collaboration.UserLeftRemovesEntry | frontend-react/src/components/CollaborativeExcalidraw.jsx:49-56 | `userLeft` removes that user and nobody else, cutting its entry out so the others keep their iteration order; for an unknown user it is a no-op |
| Collaboration.OnChange | frontend-react/src/components/CollaborativeExcalidraw.jsx:70-74 | emits nothing iff the room id is empty or the client is disconnected; otherwise exactly `updateElements {roomId, elements}` |
| Collaboration.OnPointerUpdate | frontend-react/src/components/CollaborativeExcalidraw.jsx:77-83 | emits nothing iff the room id is empty or the client is disconnected; otherwise exactly `pointerUpdate {roomId, pointer: {x, y}}` |
| Collaboration.Prefix4 | frontend-react/src/components/CollaborativeExcalidraw.jsx:94 | `slice(0, 4)` is a prefix of the id of length min(4, length) |
| Collaboration.Collaborators | frontend-react/src/components/CollaborativeExcalidraw.jsx:91-96 | one entry per Map entry in iteration order, carrying the id, its pointer, username "User " + the id's first four characters, and the fixed colours |
| Collaboration.CollaboratorIdsDistinct | frontend-react/src/components/CollaborativeExcalidraw.jsx:91-96 | no user appears twice in the collaborators array |
| Collaboration.CollaboratorsAreKnown | frontend-react/src/components/CollaborativeExcalidraw.jsx:91-92 | every rendered collaborator is a user in the Map |
| Collaboration.EveryUserShown | frontend-react/src/components/CollaborativeExcalidraw.jsx:91-92 | every user in the Map is rendered |
| Collaboration.CollaboratorsShowLastPointer | frontend-react/src/components/CollaborativeExcalidraw.jsx:91-93 | each rendered collaborator's pointer is the one the Map holds for that user |
| Collaboration.GetUnique | frontend-react/src/components/CollaborativeExcalidraw.jsx:91-93 | with unique keys the lookup of the key at position n returns that entry's value |
| Collaboration.NoRoomIsInert | frontend-react/src/components/CollaborativeExcalidraw.jsx:13 | with an empty room id no handlers are installed: no event sequence changes the state or emits anything |
| Collaboration.RunKeepsKeysUnique | frontend-react/src/components/CollaborativeExcalidraw.jsx:44-56 | any sequence of events keeps one Map entry per user |
| Collaboration.RunFollowsLastEvents | frontend-react/src/components/CollaborativeExcalidraw.jsx:16-41 | in a room, after any events the connected flag is set by the last connect or disconnect, the scene is the last one received (when the API is present), and `onChange` forwards exactly when the last connection event was a connect |
| ChatWindow.Mount | frontend-react/src/components/ChatWindow.jsx:5-14 | the panel starts closed, not minimized and not dragging, with no messages, an empty draft, a zero badge (so the badge invariant holds), the corner at (innerWidth - 380, 100) and a zero drag offset |
| ChatWindow.Receive | frontend-react/src/components/ChatWindow.jsx:19-24 | the message is appended after the earlier ones; the unread count grows by one iff the panel is closed; nothing else changes |
| ChatWindow.TrimStart | frontend-react/src/components/ChatWindow.jsx:37 | the result is a suffix, starts with no whitespace, and only whitespace was removed |
| ChatWindow.TrimEnd | frontend-react/src/components/ChatWindow.jsx:37 | the result is a prefix, ends with no whitespace, and only whitespace was removed |
| ChatWindow.Trim | frontend-react/src/components/ChatWindow.jsx:37 | `trim()` returns the part of the draft between a whitespace-only prefix and a whitespace-only suffix, neither starting nor ending with whitespace |
| ChatWindow.TrimParts | frontend-react/src/components/ChatWindow.jsx:37 | removing leading, then trailing whitespace yields a trimming of the original string |
| ChatWindow.TrimOfParts | frontend-react/src/components/ChatWindow.jsx:37 | cutting a whitespace prefix and then a whitespace suffix is trimming |
| ChatWindow.TrimEmptyIffBlank | frontend-react/src/components/ChatWindow.jsx:37 | `trim()` gives the empty string iff the draft is whitespace only |
| ChatWindow.Send | frontend-react/src/components/ChatWindow.jsx:35-47 | a blank draft emits nothing and changes nothing; otherwise one `chatMessage` goes out with the room id, the untrimmed draft and the nickname as sender, the draft is cleared and the message list is untouched |
| ChatWindow.SentEchoIsOwn | frontend-react/src/components/ChatWindow.jsx:154-159 | if a sent message is relayed back to its sender it is drawn as their own, and a viewer draws it as own iff they have the same nickname |
| ChatWindow.SideOf | frontend-react/src/components/ChatWindow.jsx:153-161 | the own-message test of lines 154 and 159 (sender equal to the nickname) decides the bubble: right-aligned in the user's colour iff it holds, otherwise left-aligned in the other colour |
| ChatWindow.Type | frontend-react/src/components/ChatWindow.jsx:177 | the draft becomes the input's value and nothing else changes |
| ChatWindow.Open | frontend-react/src/components/ChatWindow.jsx:87-92 | the panel opens, the unread count is reset to 0, and nothing else changes |
| ChatWindow.Close | frontend-react/src/components/ChatWindow.jsx:139 | the panel closes and nothing else changes |
| ChatWindow.ToggleMinimize | frontend-react/src/components/ChatWindow.jsx:133 | the minimized flag flips and nothing else changes |
| ChatWindow.MouseDown | frontend-react/src/components/ChatWindow.jsx:49-56 | a press on the controls changes nothing; elsewhere a drag starts with the offset from the panel corner to the mouse |
| ChatWindow.Clamp | frontend-react/src/components/ChatWindow.jsx:66-67 | `Math.min(Math.max(0, v), hi)`: the value when it lies in `[0, hi]`, 0 when it is negative and `hi` is not, and `hi` when the value exceeds `hi` or `hi` is negative; never above `hi` |
| ChatWindow.ClampIsNearest | frontend-react/src/components/ChatWindow.jsx:66-67 | when `[0, hi]` is not empty the clamped value is the point of it nearest to the value |
| ChatWindow.MouseMove | frontend-react/src/components/ChatWindow.jsx:59-69 | no effect unless dragging; while dragging the corner follows the mouse minus the offset when that lies in the window, goes to 0 past the left or top edge (viewport at least 350 x 500) and to innerWidth - 350 or innerHeight - 500 past the right or bottom edge; on a viewport narrower than 350 (lower than 500) it is always innerWidth - 350 (innerHeight - 500); it is never beyond those bounds |
| ChatWindow.MouseUp | frontend-react/src/components/ChatWindow.jsx:71-73 | the drag ends and nothing else changes |
| ChatWindow.Apply | frontend-react/src/components/ChatWindow.jsx:45 | only a send can emit anything |
| ChatWindow.ApplyKeepsBadgeSound | frontend-react/src/components/ChatWindow.jsx:19-24 | every single handler keeps the unread count 0 while open and between 0 and the number of messages |
| ChatWindow.RunKeepsBadgeSound | frontend-react/src/components/ChatWindow.jsx:19-24 | under any events the unread count stays 0 while the panel is open and between 0 and the number of messages |
| ChatWindow.MountedBadgeSound | frontend-react/src/components/ChatWindow.jsx:5-14 | from the mounted state the badge is sound after any events |
| ChatWindow.ClosedCountsEveryMessage | frontend-react/src/components/ChatWindow.jsx:19-23 | while closed, n received messages raise the count by n and are appended in order |
| Nickname.TablesWellFormed | frontend-react/src/utils/nicknameGenerator.js:2-12 | both tables have 15 words, none contains a space, and none occurs twice |
| Nickname.AdjectivesWellFormed | frontend-react/src/utils/nicknameGenerator.js:2-6 | the adjective table has 15 distinct space-free words |
| Nickname.NounsWellFormed | frontend-react/src/utils/nicknameGenerator.js:8-12 | the animal table has 15 distinct space-free words |
| Nickname.Generate | frontend-react/src/utils/nicknameGenerator.js:14-18 | the nickname is adjective i, one space, animal j, and contains exactly one space |
| Nickname.SpacesOfJoin | frontend-react/src/utils/nicknameGenerator.js:17 | two space-free words joined by a space contain exactly one space |
| Nickname.SplitJoin | frontend-react/src/utils/nicknameGenerator.js:17 | splitting a joined pair at its first space and looking up both halves in distinct tables finds the pair |
| Nickname.JoinSplit | frontend-react/src/utils/nicknameGenerator.js:17 | whatever splits into a pair is that pair joined by a space |
| Nickname.DecodeGenerate | frontend-react/src/utils/nicknameGenerator.js:14-18 | decoding a generated nickname returns the indices it was drawn with |
| Nickname.GenerateDecode | frontend-react/src/utils/nicknameGenerator.js:14-18 | a string that decodes is the nickname generated from the decoded indices |
| Nickname.GenerateInjective | frontend-react/src/utils/nicknameGenerator.js:14-18 | different draws give different nicknames |
| Nickname.RowMembers | frontend-react/src/utils/nicknameGenerator.js:15-17 | the nicknames with adjective i and one of the first n animals are exactly those generated from them |
| Nickname.RowSize | frontend-react/src/utils/nicknameGenerator.js:15-17 | there are exactly n of them |
| Nickname.GridMembers | frontend-react/src/utils/nicknameGenerator.js:15-17 | the nicknames with one of the first m adjectives are exactly those generated from them |
| Nickname.RowNotInGrid | frontend-react/src/utils/nicknameGenerator.js:15-17 | nicknames with different adjectives never coincide |
| Nickname.GridSize | frontend-react/src/utils/nicknameGenerator.js:15-17 | the first m adjectives give exactly 15 m nicknames |
| Nickname.NicknameCount | frontend-react/src/utils/nicknameGenerator.js:2-18 | the generator can produce exactly 225 different nicknames |

## Left out

- File I/O: reading and writing data/posts.json, `ensureDataDir`, `initializePostsFile` and JSON formatting are left out. The document is a value passed in and returned. Only the initial document `{posts: [], lastId: 0}` is kept, as `PostStore.Initial`.
- The 500 answers of every route are left out. They arise from I/O or JSON failures, which are outside the model, and from a request body without `content` (see `CreatePost` and `UpdatePost` below).
- `parseInt(req.params.id)` is left out. Ids arrive already parsed as integers.
- PostStore.CreatePost: ids are unbounded integers, while the source computes `lastId + 1` on JavaScript numbers (64-bit floats). At `lastId = 2^53` that sum is `lastId` again, so the fresh-id clause of `CreatePost` and the validity results (`ReplayKeepsValid`, `ReachableIsValid`) hold for the source only while ids stay below 2^53.
- PostStore.ReplayKeepsValid: requests are served one at a time. The source handlers are asynchronous and each awaits `readFile` before `writeFile` (for example lines 74 and 91), so two overlapping requests can read the same document: two creates can both hand out the same id, and the later write drops the other's post. The validity results hold when writes do not overlap, since each write is then one handler applied to the document the previous write left.
- Clock values (`toLocaleDateString`, `toISOString`) are opaque string parameters of `CreatePost`, `UpdatePost` and `Send`.
- `backend/jsoncrud.mjs` is not part of this model. It is a file wrapper with no logic beyond I/O.
- PostStore.CreatePost: `content` is a record with `elements` and `appState`. A request without `content`, which makes the source throw and answer 500, is not modelled.
- PostStore.GetPost: the per-post statements and the response are stated for valid documents only. With duplicate ids the source touches the first match, which `FindIndex` models, but the contract says nothing about the other copies.
- PostStore.UpdatePost: the same restriction to valid documents applies as for `GetPost`. A request body without `content` is not modelled either: the source throws at line 123, after the 404 check, answers 500 and writes nothing.
- PostStore.DeleteNewestRewindsIds: the next create reuses the deleted id only when the deleted id was one above its successor. It fails only when the post numbered directly below the head was deleted earlier: from ids [3, 2, 1], deleting 2 and then 3 makes the next create hand out 2.
- The socket.io transport and the Excalidraw library are outside the model. Received events are arguments, emitted events are return values, and the scene `updateScene` shows is the client's `scene` field. Elements and the app state are opaque.
- Server-side rooms, presence and broadcast are not modelled. The modelled server file only serves REST routes.
- Collaboration.Receive: handler re-installation when `excalidrawAPI` or `roomId` changes is not modelled (the cleanup at lines 59-66). The component's props are fixed fields of the client state.
- Collaboration.Prefix4: JavaScript `slice` counts UTF-16 code units, while Dafny characters are Unicode scalar values. The two differ only for ids with characters outside the Basic Multilingual Plane.
- Pointer and mouse coordinates are integers. The source's floating-point coordinates are not modelled.
- `Math.random` and `Math.floor` in `generateNickname` are left out. The two draws are the parameters `i` and `j`.
- ChatWindow: the DOM effects (`scrollIntoView`, adding and removing the window listeners, styling) and the absent-socket case (line 17) are left out.
- ChatWindow.Apply: every handler may fire in every state. The UI allows fewer, since for example the header exists only while the panel is open. The invariants proved over `Run` therefore cover every sequence the UI allows.
- Rendering, routing, toasts, the board pages and the sample data in the other frontend files are not part of this model.

=== FILE: chat_window.dfy ===
/** The chat panel of ChatWindow.jsx as a state machine. The React state hooks become
    one record; the props (`roomId`, `nickname`) and the viewport size are an environment
    passed to the handlers; a sent message is returned instead of being emitted on the
    socket. */
module ChatWindow {

  datatype Position = Position(x: int, y: int)

  datatype Message = Message(text: string, sender: string, timestamp: string)

  /** The props the component renders with, and the window's inner size. */
  datatype Env = Env(roomId: string, nickname: string, innerWidth: int, innerHeight: int)

  /** The `chatMessage` payload emitted on send. */
  datatype Outgoing = ChatMessage(roomId: string, message: Message)

  datatype Chat = Chat(
    isOpen: bool,
    isMinimized: bool,
    messages: seq<Message>,
    draft: string,
    unreadCount: int,
    position: Position,
    isDragging: bool,
    dragOffset: Position
  )

  /** Width and height of the open panel, which the drag keeps inside the viewport. */
  const PanelWidth := 350
  const PanelHeight := 500

  /** The state on mount: closed, no messages, panel placed 380 pixels from the right edge
      and 100 from the top. */
  function Mount(env: Env): (r: Chat)
    ensures !r.isOpen && !r.isMinimized && !r.isDragging
    ensures r.messages == [] && r.draft == "" && r.unreadCount == 0
    ensures r.position == Position(env.innerWidth - 380, 100) && r.dragOffset == Position(0, 0)
    ensures BadgeSound(r)
  {
    Chat(false, false, [], "", 0, Position(env.innerWidth - 380, 100), false, Position(0, 0))
  }

  /** The `chatMessage` handler: append, and count it as unread while the panel is closed. */
  function Receive(c: Chat, m: Message): (r: Chat)
    ensures r.messages == c.messages + [m]
    ensures r.unreadCount == (if c.isOpen then c.unreadCount else c.unreadCount + 1)
    ensures r.(messages := c.messages, unreadCount := c.unreadCount) == c
  {
    c.(messages := c.messages + [m], unreadCount := if c.isOpen then c.unreadCount else c.unreadCount + 1)
  }

  /** The characters `String.prototype.trim` removes: ECMAScript WhiteSpace (tab, vertical
      tab, form feed, space, no-break space, byte order mark and the Zs separators) and
      LineTerminator (LF, CR, line and paragraph separator). */
  predicate IsJsWhitespace(ch: char) {
    || ch == '\t' || ch == '\U{000B}' || ch == '\U{000C}' || ch == ' ' || ch == '\U{00A0}'
    || ch == '\U{FEFF}' || ch == '\U{1680}' || ('\U{2000}' <= ch <= '\U{200A}')
    || ch == '\U{202F}' || ch == '\U{205F}' || ch == '\U{3000}'
    || ch == '\n' || ch == '\r' || ch == '\U{2028}' || ch == '\U{2029}'
  }

  predicate AllWhitespace(s: string) {
    forall n :: 0 <= n < |s| ==> IsJsWhitespace(s[n])
  }

  /** Leading whitespace removed. */
  function TrimStart(s: string): (r: string)
    ensures |r| <= |s| && r == s[|s| - |r|..]
    ensures |r| > 0 ==> !IsJsWhitespace(r[0])
    ensures AllWhitespace(s[..|s| - |r|])
    decreases |s|
  {
    if |s| > 0 && IsJsWhitespace(s[0]) then
      var r := TrimStart(s[1..]);
      assert s[..|s| - |r|] == [s[0]] + s[1..][..|s[1..]| - |r|];
      assert s[1..][|s[1..]| - |r|..] == s[|s| - |r|..];
      r
    else s
  }

  /** Trailing whitespace removed. */
  function TrimEnd(s: string): (r: string)
    ensures |r| <= |s| && r == s[..|r|]
    ensures |r| > 0 ==> !IsJsWhitespace(r[|r| - 1])
    ensures AllWhitespace(s[|r|..])
    decreases |s|
  {
    if |s| > 0 && IsJsWhitespace(s[|s| - 1]) then
      var r := TrimEnd(s[..|s| - 1]);
      assert s[..|s| - 1][..|r|] == s[..|r|];
      assert s[|r|..] == s[..|s| - 1][|r|..] + [s[|s| - 1]];
      r
    else s
  }

  /** `r` is what is left of `s` once a whitespace run is cut from each end. */
  predicate IsTrimOf(s: string, r: string) {
    exists a ::
      && 0 <= a <= |s| - |r| && s[a..a + |r|] == r
      && AllWhitespace(s[..a]) && AllWhitespace(s[a + |r|..])
  }

  /** `String.prototype.trim`: the part of `s` between its leading and its trailing
      whitespace. */
  function Trim(s: string): (r: string)
    ensures |r| > 0 ==> !IsJsWhitespace(r[0]) && !IsJsWhitespace(r[|r| - 1])
    ensures IsTrimOf(s, r)
  {
    TrimParts(s);
    TrimEnd(TrimStart(s))
  }

  /** The leading whitespace ends at `|s| - |TrimStart(s)|`, and what follows the trimmed
      text is whitespace. */
  lemma TrimParts(s: string)
    ensures var r := TrimEnd(TrimStart(s));
      && IsTrimOf(s, r)
      && (|r| > 0 ==> !IsJsWhitespace(r[0]))
  {
    var t := TrimStart(s);
    TrimOfParts(s, t, TrimEnd(t));
  }

  /** Cutting a whitespace prefix and then a whitespace suffix is trimming. */
  lemma TrimOfParts(s: string, t: string, r: string)
    requires |t| <= |s| && t == s[|s| - |t|..] && AllWhitespace(s[..|s| - |t|])
    requires |r| <= |t| && r == t[..|r|] && AllWhitespace(t[|r|..])
    ensures IsTrimOf(s, r)
  {
    var a := |s| - |t|;
    assert s[a..a + |r|] == r;
    assert s[a + |r|..] == t[|r|..];
  }

  /** `!text.trim()` holds exactly for the strings made only of whitespace. */
  lemma TrimEmptyIffBlank(s: string)
    ensures Trim(s) == "" <==> AllWhitespace(s)
  {
    var t := TrimStart(s);
    var lead := s[..|s| - |t|];
    assert s == lead + t;
    if Trim(s) == "" {
      assert t[0..] == t;
      forall n | 0 <= n < |s|
        ensures IsJsWhitespace(s[n])
      {
        assert s[n] == lead[n];
      }
    }
  }

  /** `handleSend`: a blank draft is ignored; otherwise the draft, untrimmed, goes out
      under the user's nickname and the draft is cleared. The message list is not touched:
      the message appears only if it is relayed back as a `chatMessage`. */
  function Send(c: Chat, env: Env, timestamp: string): (r: (Chat, seq<Outgoing>))
    ensures AllWhitespace(c.draft) ==> r.0 == c && r.1 == []
    ensures !AllWhitespace(c.draft) ==>
      && r.0 == c.(draft := "")
      && r.1 == [ChatMessage(env.roomId, Message(c.draft, env.nickname, timestamp))]
  {
    TrimEmptyIffBlank(c.draft);
    if Trim(c.draft) == "" then (c, [])
    else (c.(draft := ""), [ChatMessage(env.roomId, Message(c.draft, env.nickname, timestamp))])
  }

  /** The input's `onChange`. */
  function Type(c: Chat, text: string): (r: Chat)
    ensures r.draft == text && r.(draft := c.draft) == c
  {
    c.(draft := text)
  }

  /** `handleChatButtonClick`: open the panel and clear the unread badge. */
  function Open(c: Chat): (r: Chat)
    ensures r.isOpen && r.unreadCount == 0
    ensures r.(isOpen := c.isOpen, unreadCount := c.unreadCount) == c
  {
    c.(isOpen := true, unreadCount := 0)
  }

  /** The close button. */
  function Close(c: Chat): (r: Chat)
    ensures !r.isOpen && r.(isOpen := c.isOpen) == c
  {
    c.(isOpen := false)
  }

  /** The minimize button flips between the header-only and the full panel. */
  function ToggleMinimize(c: Chat): (r: Chat)
    ensures r.isMinimized != c.isMinimized && r.(isMinimized := c.isMinimized) == c
  {
    c.(isMinimized := !c.isMinimized)
  }

  /** `handleMouseDown` on the header: a press on the control buttons does nothing;
      elsewhere it starts a drag, remembering where in the panel it was grabbed. */
  function MouseDown(c: Chat, onControls: bool, clientX: int, clientY: int): (r: Chat)
    ensures onControls ==> r == c
    ensures !onControls ==>
      && r.isDragging
      && r.position.x + r.dragOffset.x == clientX && r.position.y + r.dragOffset.y == clientY
      && r.(isDragging := c.isDragging, dragOffset := c.dragOffset) == c
  {
    if onControls then c
    else c.(isDragging := true, dragOffset := Position(clientX - c.position.x, clientY - c.position.y))
  }

  /** `Math.min(Math.max(0, v), hi)`. */
  function Clamp(v: int, hi: int): (r: int)
    ensures r <= hi
    ensures 0 <= hi ==> 0 <= r
    ensures 0 <= v <= hi ==> r == v
    ensures v < 0 && 0 <= hi ==> r == 0
    ensures hi < v || hi < 0 ==> r == hi
  {
    var low := if v > 0 then v else 0;
    if low < hi then low else hi
  }

  function Distance(a: int, b: int): nat {
    if a < b then b - a else a - b
  }

  /** When the range `[0, hi]` is not empty, the clamped value is the point of it nearest
      to `v`. */
  lemma ClampIsNearest(v: int, hi: int, w: int)
    requires 0 <= hi && 0 <= w <= hi
    ensures 0 <= Clamp(v, hi) <= hi
    ensures Distance(Clamp(v, hi), v) <= Distance(w, v)
  {
  }

  /** `handleMouseMove` while dragging: follow the mouse, keeping the panel's top-left
      corner within `[0, innerWidth - 350] x [0, innerHeight - 500]`. */
  function MouseMove(c: Chat, env: Env, clientX: int, clientY: int): (r: Chat)
    ensures !c.isDragging ==> r == c
    ensures c.isDragging ==>
      && r.position.x <= env.innerWidth - PanelWidth
      && r.position.y <= env.innerHeight - PanelHeight
      && (env.innerWidth >= PanelWidth ==> r.position.x >= 0)
      && (env.innerHeight >= PanelHeight ==> r.position.y >= 0)
      && r.(position := c.position) == c
    ensures c.isDragging && 0 <= clientX - c.dragOffset.x <= env.innerWidth - PanelWidth ==>
      r.position.x == clientX - c.dragOffset.x
    ensures c.isDragging && 0 <= clientY - c.dragOffset.y <= env.innerHeight - PanelHeight ==>
      r.position.y == clientY - c.dragOffset.y
    ensures c.isDragging && clientX - c.dragOffset.x < 0 && env.innerWidth >= PanelWidth ==>
      r.position.x == 0
    ensures c.isDragging && clientX - c.dragOffset.x > env.innerWidth - PanelWidth ==>
      r.position.x == env.innerWidth - PanelWidth
    ensures c.isDragging && clientY - c.dragOffset.y < 0 && env.innerHeight >= PanelHeight ==>
      r.position.y == 0
    ensures c.isDragging && clientY - c.dragOffset.y > env.innerHeight - PanelHeight ==>
      r.position.y == env.innerHeight - PanelHeight
    ensures c.isDragging && env.innerWidth < PanelWidth ==> r.position.x == env.innerWidth - PanelWidth
    ensures c.isDragging && env.innerHeight < PanelHeight ==> r.position.y == env.innerHeight - PanelHeight
  {
    if !c.isDragging then c
    else
      c.(position := Position(
        Clamp(clientX - c.dragOffset.x, env.innerWidth - PanelWidth),
        Clamp(clientY - c.dragOffset.y, env.innerHeight - PanelHeight)))
  }

  /** `handleMouseUp`: the drag ends. */
  function MouseUp(c: Chat): (r: Chat)
    ensures !r.isDragging && r.(isDragging := c.isDragging) == c
  {
    c.(isDragging := false)
  }

  /** The test that decides how a message is drawn: its sender is compared with the
      user's nickname. */
  predicate IsOwn(env: Env, m: Message) {
    m.sender == env.nickname
  }

  /** The two ways a message bubble is drawn. */
  datatype Side = Right | Left

  /** The bubble's alignment and colour: right-aligned in the user's colour for their own
      messages, left-aligned in the other colour for everybody else's. */
  function SideOf(env: Env, m: Message): (side: Side)
    ensures side == Right <==> IsOwn(env, m)
  {
    if m.sender == env.nickname then Right else Left
  }

  /** If a sent message is relayed back to its sender, it is drawn as their own; a viewer
      with another nickname draws it on the other side. */
  lemma SentEchoIsOwn(c: Chat, env: Env, timestamp: string, other: Env)
    requires !AllWhitespace(c.draft)
    ensures var out := Send(c, env, timestamp).1;
      && |out| == 1
      && IsOwn(env, out[0].message)
      && (IsOwn(other, out[0].message) <==> other.nickname == env.nickname)
  {
  }

  /** Everything that can happen to the panel. */
  datatype Event =
    | Received(m: Message)
    | Typed(text: string)
    | Sent(timestamp: string)
    | Opened
    | Closed
    | Minimized
    | Pressed(onControls: bool, x: int, y: int)
    | Moved(x: int, y: int)
    | Released

  function Apply(c: Chat, env: Env, ev: Event): (r: (Chat, seq<Outgoing>))
    ensures ev.Sent? || r.1 == []
  {
    match ev
    case Received(m) => (Receive(c, m), [])
    case Typed(text) => (Type(c, text), [])
    case Sent(ts) => Send(c, env, ts)
    case Opened => (Open(c), [])
    case Closed => (Close(c), [])
    case Minimized => (ToggleMinimize(c), [])
    case Pressed(onControls, x, y) => (MouseDown(c, onControls, x, y), [])
    case Moved(x, y) => (MouseMove(c, env, x, y), [])
    case Released => (MouseUp(c), [])
  }

  function Run(c: Chat, env: Env, evs: seq<Event>): Chat
    decreases |evs|
  {
    if |evs| == 0 then c else Run(Apply(c, env, evs[0]).0, env, evs[1..])
  }

  /** The unread badge only ever counts messages that arrived while the panel was closed:
      it is zero whenever the panel is open and never exceeds the number of messages. */
  predicate BadgeSound(c: Chat) {
    && (c.isOpen ==> c.unreadCount == 0)
    && 0 <= c.unreadCount <= |c.messages|
  }

  lemma {:induction false} RunKeepsBadgeSound(c: Chat, env: Env, evs: seq<Event>)
    requires BadgeSound(c)
    ensures BadgeSound(Run(c, env, evs))
    decreases |evs|
  {
    if |evs| > 0 {
      ApplyKeepsBadgeSound(c, env, evs[0]);
      RunKeepsBadgeSound(Apply(c, env, evs[0]).0, env, evs[1..]);
    }
  }

  /** Every single handler keeps the badge sound. */
  lemma ApplyKeepsBadgeSound(c: Chat, env: Env, ev: Event)
    requires BadgeSound(c)
    ensures BadgeSound(Apply(c, env, ev).0)
  {
  }

  lemma MountedBadgeSound(env: Env, evs: seq<Event>)
    ensures BadgeSound(Run(Mount(env), env, evs))
  {
    RunKeepsBadgeSound(Mount(env), env, evs);
  }

  /** While the panel stays closed, the badge counts every message received, and the
      messages arrive at the end of the list in order. */
  lemma {:induction false} ClosedCountsEveryMessage(c: Chat, env: Env, ms: seq<Message>)
    requires !c.isOpen
    ensures var evs := seq(|ms|, n requires 0 <= n < |ms| => Received(ms[n]));
      var r := Run(c, env, evs);
      r.unreadCount == c.unreadCount + |ms| && r.messages == c.messages + ms && !r.isOpen
    decreases |ms|
  {
    var evs := seq(|ms|, n requires 0 <= n < |ms| => Received(ms[n]));
    if |ms| > 0 {
      var c1 := Receive(c, ms[0]);
      var evs1 := seq(|ms[1..]|, n requires 0 <= n < |ms[1..]| => Received(ms[1..][n]));
      assert evs[1..] == evs1;
      ClosedCountsEveryMessage(c1, env, ms[1..]);
      assert c.messages + ms == c1.messages + ms[1..];
    }
  }
}

=== FILE: collaboration.dfy ===
/** The client side of real-time co-editing in CollaborativeExcalidraw.jsx: the socket
    event handlers, the gating of outgoing scene and pointer updates, and the list of
    collaborators handed to the Excalidraw canvas. The socket and the canvas are outside
    the model: incoming events are arguments, emitted events are returned, and the scene
    last handed to `updateScene` is a field of the client state. */
module Collaboration {
  import opened Wrappers
  import opened JsMap

  datatype Pointer = Pointer(x: int, y: int)

  /** A drawing element; this layer never looks inside one. */
  datatype Element = Element(json: string)

  /** The component's state: its `roomId` prop, whether the canvas API has been handed
      over yet, the `isConnected` flag, the `collaborators` Map from user id to pointer,
      and the scene last handed to `updateScene` (local drawing on the canvas never
      reaches it). */
  datatype Client = Client(
    roomId: string,
    apiReady: bool,
    connected: bool,
    collaborators: seq<Entry<string, Pointer>>,
    scene: seq<Element>
  )

  /** Server-to-client socket events the component listens for. */
  datatype Incoming =
    | Connect
    | Disconnect
    | CanvasState(elements: seq<Element>)
    | ElementsUpdated(elements: seq<Element>)
    | PointerUpdated(userId: string, pointer: Pointer)
    | UserLeft(userId: string)

  /** Client-to-server socket events the component emits. */
  datatype Outgoing =
    | JoinRoom(roomId: string)
    | UpdateElements(roomId: string, elements: seq<Element>)
    | PointerUpdate(roomId: string, pointer: Pointer)

  datatype Step = Step(client: Client, emitted: seq<Outgoing>)

  /** The entry handed to Excalidraw for each remote user. */
  datatype Collaborator = Collaborator(id: string, pointer: Pointer, username: string, background: string, stroke: string)

  const Background := "#ffcce5"
  const Stroke := "#ff99cc"

  /** The state on mount: disconnected, nobody else seen, an empty canvas. */
  function Mount(roomId: string, apiReady: bool): (r: Client)
    ensures r.roomId == roomId && r.apiReady == apiReady
    ensures !r.connected && !MaySend(r)
    ensures ToMap(r.collaborators) == map[] && KeysUnique(r.collaborators)
    ensures Collaborators(r) == [] && r.scene == []
  {
    Client(roomId, apiReady, false, [], [])
  }

  /** The handlers are only installed when `roomId` is non-empty. */
  predicate Listening(c: Client) {
    c.roomId != ""
  }

  /** The scene last handed to `updateScene` after an incoming full scene: the received
      one, whole, when the canvas API is available, otherwise the old one. */
  function ShowScene(c: Client, elements: seq<Element>): (r: Client)
    ensures r.scene == (if c.apiReady then elements else c.scene)
    ensures r.(scene := c.scene) == c
  {
    if c.apiReady then c.(scene := elements) else c
  }

  /** One incoming socket event. */
  function Receive(c: Client, ev: Incoming): (r: Step)
    ensures !Listening(c) ==> r == Step(c, [])
    ensures Listening(c) && ev.Connect? ==> r.client.connected && r.emitted == [JoinRoom(c.roomId)]
    ensures Listening(c) && ev.Disconnect? ==> !r.client.connected && r.emitted == []
    ensures !ev.Connect? ==> r.emitted == []
    ensures r.client.roomId == c.roomId && r.client.apiReady == c.apiReady
    ensures Listening(c) && (ev.CanvasState? || ev.ElementsUpdated?) ==>
      r.client.scene == (if c.apiReady then ev.elements else c.scene)
    ensures !(ev.CanvasState? || ev.ElementsUpdated?) ==> r.client.scene == c.scene
    ensures !(ev.PointerUpdated? || ev.UserLeft?) ==> r.client.collaborators == c.collaborators
    ensures !(ev.Connect? || ev.Disconnect?) ==> r.client.connected == c.connected
    ensures KeysUnique(c.collaborators) ==> KeysUnique(r.client.collaborators)
  {
    if !Listening(c) then Step(c, [])
    else
      match ev
      case Connect => Step(c.(connected := true), [JoinRoom(c.roomId)])
      case Disconnect => Step(c.(connected := false), [])
      case CanvasState(elements) => Step(ShowScene(c, elements), [])
      case ElementsUpdated(elements) => Step(ShowScene(c, elements), [])
      case PointerUpdated(userId, pointer) =>
        SetKeepsKeysUnique(c.collaborators, userId, pointer);
        Step(c.(collaborators := Set(c.collaborators, userId, pointer)), [])
      case UserLeft(userId) =>
        DeleteKeepsKeysUnique(c.collaborators, userId);
        Step(c.(collaborators := Delete(c.collaborators, userId)), [])
  }

  /** `pointerUpdated` maps the user to the new pointer and leaves every other user as it
      was; a user seen before keeps their place in the iteration order, a new one goes last. */
  lemma PointerUpdatedSetsEntry(c: Client, userId: string, pointer: Pointer)
    requires Listening(c)
    ensures var after := Receive(c, PointerUpdated(userId, pointer)).client.collaborators;
      && ToMap(after) == ToMap(c.collaborators)[userId := pointer]
      && Keys(after) == if userId in Keys(c.collaborators) then Keys(c.collaborators)
                        else Keys(c.collaborators) + [userId]
  {
    SetAsMap(c.collaborators, userId, pointer);
  }

  /** `userLeft` forgets the user and nobody else, and the others keep their iteration
      order; for a user never seen it changes nothing. */
  lemma UserLeftRemovesEntry(c: Client, userId: string)
    requires Listening(c) && KeysUnique(c.collaborators)
    ensures var after := Receive(c, UserLeft(userId)).client.collaborators;
      && ToMap(after) == ToMap(c.collaborators) - {userId}
      && (userId !in ToMap(c.collaborators) ==> after == c.collaborators)
      && (userId in ToMap(c.collaborators) ==>
            exists n ::
              && 0 <= n < |c.collaborators| && c.collaborators[n].key == userId
              && after == c.collaborators[..n] + c.collaborators[n + 1..])
  {
    DeleteAsMap(c.collaborators, userId);
    ToMapAgrees(c.collaborators, userId);
    if userId in ToMap(c.collaborators) {
      var n := DeleteIsSplice(c.collaborators, userId);
    }
  }

  /** Outgoing updates are sent only while in a room and connected. */
  predicate MaySend(c: Client) {
    c.roomId != "" && c.connected
  }

  /** The canvas's `onChange`: forwards the whole element list to the room. */
  function OnChange(c: Client, elements: seq<Element>): (r: seq<Outgoing>)
    ensures !MaySend(c) <==> r == []
    ensures MaySend(c) ==> r == [UpdateElements(c.roomId, elements)]
  {
    if !MaySend(c) then [] else [UpdateElements(c.roomId, elements)]
  }

  /** The canvas's `onPointerUpdate`: forwards the pointer position to the room. */
  function OnPointerUpdate(c: Client, x: int, y: int): (r: seq<Outgoing>)
    ensures !MaySend(c) <==> r == []
    ensures MaySend(c) ==> r == [PointerUpdate(c.roomId, Pointer(x, y))]
  {
    if !MaySend(c) then [] else [PointerUpdate(c.roomId, Pointer(x, y))]
  }

  /** `id.slice(0, 4)`: at most the first four characters. */
  function Prefix4(id: string): (p: string)
    ensures |p| == if |id| < 4 then |id| else 4
    ensures p <= id
  {
    if |id| <= 4 then id else id[..4]
  }

  /** The `collaborators` prop: one entry per Map entry, in the Map's iteration order. */
  function Collaborators(c: Client): (r: seq<Collaborator>)
    ensures |r| == |c.collaborators|
    ensures forall n :: 0 <= n < |r| ==>
      && r[n].id == c.collaborators[n].key
      && r[n].pointer == c.collaborators[n].value
      && r[n].username == "User " + Prefix4(r[n].id)
      && r[n].background == Background && r[n].stroke == Stroke
  {
    seq(|c.collaborators|, n requires 0 <= n < |c.collaborators| =>
      var e := c.collaborators[n];
      Collaborator(e.key, e.value, "User " + Prefix4(e.key), Background, Stroke))
  }

  /** The rendered collaborators are exactly the users in the Map: each once ... */
  lemma CollaboratorIdsDistinct(c: Client)
    requires KeysUnique(c.collaborators)
    ensures var r := Collaborators(c);
      forall a, b :: 0 <= a < b < |r| ==> r[a].id != r[b].id
  {
    var r := Collaborators(c);
    var ks := Keys(c.collaborators);
    forall a, b | 0 <= a < b < |r|
      ensures r[a].id != r[b].id
    {
      assert ks[a] == r[a].id && ks[b] == r[b].id;
    }
  }

  /** ... nobody who is not in the Map ... */
  lemma CollaboratorsAreKnown(c: Client)
    ensures var r := Collaborators(c);
      forall n :: 0 <= n < |r| ==> r[n].id in ToMap(c.collaborators)
  {
    var r := Collaborators(c);
    var es := c.collaborators;
    forall n | 0 <= n < |r|
      ensures r[n].id in ToMap(es)
    {
      ToMapAgrees(es, r[n].id);
      assert Keys(es)[n] == r[n].id;
    }
  }

  /** ... and everybody who is. */
  lemma EveryUserShown(c: Client)
    ensures var r := Collaborators(c);
      forall k :: k in ToMap(c.collaborators) ==> exists n :: 0 <= n < |r| && r[n].id == k
  {
    var r := Collaborators(c);
    var es := c.collaborators;
    forall k | k in ToMap(es)
      ensures exists n :: 0 <= n < |r| && r[n].id == k
    {
      var n := KeyPosition(es, k);
      assert r[n].id == k;
    }
  }

  /** A key of the map view sits at some position of the list. */
  lemma KeyPosition(es: seq<Entry<string, Pointer>>, k: string) returns (n: nat)
    requires k in ToMap(es)
    ensures n < |es| && es[n].key == k
  {
    ToMapAgrees(es, k);
    var ks := Keys(es);
    n :| 0 <= n < |ks| && ks[n] == k;
  }

  /** ... each shown at the pointer last received for that user. */
  lemma CollaboratorsShowLastPointer(c: Client, n: nat)
    requires KeysUnique(c.collaborators) && n < |c.collaborators|
    ensures var r := Collaborators(c);
      r[n].id in ToMap(c.collaborators) && ToMap(c.collaborators)[r[n].id] == r[n].pointer
  {
    var r := Collaborators(c);
    var es := c.collaborators;
    ToMapAgrees(es, r[n].id);
    assert Keys(es)[n] == r[n].id;
    GetUnique(es, n);
  }

  /** With unique keys, `get` finds the entry at its position. */
  lemma {:induction false} GetUnique(es: seq<Entry<string, Pointer>>, n: nat)
    requires KeysUnique(es) && n < |es|
    ensures Get(es, es[n].key) == Some(es[n].value)
  {
    assert Keys(es) == [es[0].key] + Keys(es[1..]);
    DistinctCons(es[0].key, Keys(es[1..]));
    if n > 0 {
      assert es[n] == es[1..][n - 1];
      assert es[n].key in Keys(es[1..]);
      GetUnique(es[1..], n - 1);
    }
  }

  /** The client after a run of incoming events, with everything it emitted; the last
      event is handled last. */
  function Run(c: Client, evs: seq<Incoming>): Step
    decreases |evs|
  {
    if |evs| == 0 then Step(c, [])
    else
      var before := Run(c, evs[..|evs| - 1]);
      var last := Receive(before.client, evs[|evs| - 1]);
      Step(last.client, before.emitted + last.emitted)
  }

  /** Without a room nothing is listened to: no event sequence changes anything. */
  lemma {:induction false} NoRoomIsInert(c: Client, evs: seq<Incoming>)
    requires !Listening(c)
    ensures Run(c, evs) == Step(c, [])
    decreases |evs|
  {
    if |evs| > 0 {
      NoRoomIsInert(c, evs[..|evs| - 1]);
    }
  }

  /** Whatever happens, the collaborators Map keeps one entry per user. */
  lemma {:induction false} RunKeepsKeysUnique(c: Client, evs: seq<Incoming>)
    requires KeysUnique(c.collaborators)
    ensures KeysUnique(Run(c, evs).client.collaborators)
    decreases |evs|
  {
    if |evs| > 0 {
      RunKeepsKeysUnique(c, evs[..|evs| - 1]);
    }
  }

  /** Reference reading of the connected flag: the last connect or disconnect decides. */
  function ConnectedAfter(connected: bool, evs: seq<Incoming>): bool
    decreases |evs|
  {
    if |evs| == 0 then connected
    else
      match evs[|evs| - 1]
      case Connect => true
      case Disconnect => false
      case _ => ConnectedAfter(connected, evs[..|evs| - 1])
  }

  /** Reference reading of the scene: the last full scene received replaces everything
      before it (last write wins, no merge). */
  function SceneAfter(scene: seq<Element>, evs: seq<Incoming>): seq<Element>
    decreases |evs|
  {
    if |evs| == 0 then scene
    else
      match evs[|evs| - 1]
      case CanvasState(elements) => elements
      case ElementsUpdated(elements) => elements
      case _ => SceneAfter(scene, evs[..|evs| - 1])
  }

  /** In a room, the connected flag and the scene after any run of events are decided by
      the last connection event and the last scene received; so outgoing updates are
      forwarded exactly when the last connection event was a connect. */
  lemma {:induction false} RunFollowsLastEvents(c: Client, evs: seq<Incoming>, elements: seq<Element>)
    requires Listening(c)
    ensures Run(c, evs).client.connected == ConnectedAfter(c.connected, evs)
    ensures Run(c, evs).client.scene == if c.apiReady then SceneAfter(c.scene, evs) else c.scene
    ensures Run(c, evs).client.roomId == c.roomId && Run(c, evs).client.apiReady == c.apiReady
    ensures OnChange(Run(c, evs).client, elements) ==
      if ConnectedAfter(c.connected, evs) then [UpdateElements(c.roomId, elements)] else []
    decreases |evs|
  {
    if |evs| > 0 {
      RunFollowsLastEvents(c, evs[..|evs| - 1], elements);
    }
  }
}

=== FILE: js_map.dfy ===
/** A JavaScript `Map` as the association list it behaves like: keys are unique and
    iteration follows insertion order. `set` on a present key replaces the value where it
    stands; on a new key it appends. `delete` removes the key and closes the gap. */
module JsMap {
  import opened Wrappers

  datatype Entry<K, V> = Entry(key: K, value: V)

  /** The keys in iteration order (`Map.prototype.keys`). */
  function Keys<K, V>(es: seq<Entry<K, V>>): (ks: seq<K>)
    ensures |ks| == |es|
    ensures forall n :: 0 <= n < |es| ==> ks[n] == es[n].key
  {
    if |es| == 0 then [] else [es[0].key] + Keys(es[1..])
  }

  predicate Distinct<K(==)>(ks: seq<K>) {
    forall a, b :: 0 <= a < b < |ks| ==> ks[a] != ks[b]
  }

  /** What every JavaScript `Map` satisfies: no key twice. */
  predicate KeysUnique<K(==), V>(es: seq<Entry<K, V>>) {
    Distinct(Keys(es))
  }

  /** `Map.prototype.get`, with undefined as None. */
  function Get<K(==), V>(es: seq<Entry<K, V>>, k: K): (r: Option<V>)
    ensures r.None? <==> k !in Keys(es)
    ensures r.Some? ==> Entry(k, r.value) in es
  {
    if |es| == 0 then None
    else if es[0].key == k then Some(es[0].value)
    else
      var r := Get(es[1..], k);
      assert Keys(es) == [es[0].key] + Keys(es[1..]);
      r
  }

  /** `Map.prototype.set`. */
  function Set<K(==), V>(es: seq<Entry<K, V>>, k: K, v: V): (r: seq<Entry<K, V>>)
    ensures Keys(r) == if k in Keys(es) then Keys(es) else Keys(es) + [k]
  {
    if |es| == 0 then [Entry(k, v)]
    else if es[0].key == k then
      assert Keys(es) == [k] + Keys(es[1..]);
      [Entry(k, v)] + es[1..]
    else
      var rest := Set(es[1..], k, v);
      assert Keys(es) == [es[0].key] + Keys(es[1..]);
      assert Keys([es[0]] + rest) == [es[0].key] + Keys(rest);
      [es[0]] + rest
  }

  /** `Map.prototype.delete`; a missing key changes nothing. */
  function Delete<K(==), V>(es: seq<Entry<K, V>>, k: K): (r: seq<Entry<K, V>>)
    ensures k !in Keys(es) ==> r == es
    ensures k in Keys(es) ==> |r| == |es| - 1
    ensures forall j :: j in Keys(r) ==> j in Keys(es)
  {
    if |es| == 0 then []
    else if es[0].key == k then es[1..]
    else
      var rest := Delete(es[1..], k);
      assert Keys(es) == [es[0].key] + Keys(es[1..]);
      assert Keys([es[0]] + rest) == [es[0].key] + Keys(rest);
      [es[0]] + rest
  }

  /** After `set`, the key reads back the new value and every other key reads as before. */
  lemma {:induction false} SetGet<K, V>(es: seq<Entry<K, V>>, k: K, v: V, j: K)
    ensures Get(Set(es, k, v), j) == if j == k then Some(v) else Get(es, j)
  {
    if |es| > 0 && es[0].key != k {
      SetGet(es[1..], k, v, j);
      assert Set(es, k, v) == [es[0]] + Set(es[1..], k, v);
    }
  }

  /** After `delete`, every other key reads as before; with unique keys the deleted key
      reads as absent. */
  lemma {:induction false} DeleteGet<K, V>(es: seq<Entry<K, V>>, k: K, j: K)
    requires KeysUnique(es) || j != k
    ensures Get(Delete(es, k), j) == if j == k then None else Get(es, j)
  {
    if |es| > 0 {
      if es[0].key == k {
        if j == k {
          assert Keys(es) == [es[0].key] + Keys(es[1..]);
          DistinctCons(es[0].key, Keys(es[1..]));
        }
      } else {
        if j == k {
          assert Keys(es) == [es[0].key] + Keys(es[1..]);
          DistinctCons(es[0].key, Keys(es[1..]));
        }
        DeleteGet(es[1..], k, j);
        assert Delete(es, k) == [es[0]] + Delete(es[1..], k);
      }
    }
  }

  lemma DistinctCons<K>(x: K, t: seq<K>)
    ensures Distinct([x] + t) <==> x !in t && Distinct(t)
  {
    var s := [x] + t;
    if x !in t && Distinct(t) {
      forall a, b | 0 <= a < b < |s|
        ensures s[a] != s[b]
      {
        assert s[b] == t[b - 1];
        if a > 0 {
          assert s[a] == t[a - 1];
        }
      }
    }
    if Distinct(s) {
      forall a, b | 0 <= a < b < |t|
        ensures t[a] != t[b]
      {
        assert t[a] == s[a + 1] && t[b] == s[b + 1];
      }
      forall n | 0 <= n < |t|
        ensures t[n] != x
      {
        assert s[0] != s[n + 1];
      }
    }
  }

  /** `set` and `delete` keep the keys unique. */
  lemma SetKeepsKeysUnique<K, V>(es: seq<Entry<K, V>>, k: K, v: V)
    ensures KeysUnique(es) ==> KeysUnique(Set(es, k, v))
  {
    var ks := Keys(es);
    if KeysUnique(es) && k !in ks {
      forall a, b | 0 <= a < b < |ks + [k]|
        ensures (ks + [k])[a] != (ks + [k])[b]
      {
        if b == |ks| {
          assert (ks + [k])[a] == ks[a];
        }
      }
    }
  }

  lemma {:induction false} DeleteKeepsKeysUnique<K, V>(es: seq<Entry<K, V>>, k: K)
    ensures KeysUnique(es) ==> KeysUnique(Delete(es, k)) && k !in Keys(Delete(es, k))
  {
    if |es| > 0 && KeysUnique(es) {
      var t := es[1..];
      assert Keys(es) == [es[0].key] + Keys(t);
      DistinctCons(es[0].key, Keys(t));
      DeleteKeepsKeysUnique(t, k);
      if es[0].key != k {
        var r := Delete(es, k);
        assert r == [es[0]] + Delete(t, k);
        assert Keys(r) == [es[0].key] + Keys(Delete(t, k));
        DistinctCons(es[0].key, Keys(Delete(t, k)));
      }
    }
  }

  /** `delete` of a present key cuts its first entry out and keeps every other entry, in
      iteration order. */
  lemma {:induction false} DeleteIsSplice<K, V>(es: seq<Entry<K, V>>, k: K) returns (n: nat)
    requires k in Keys(es)
    ensures n < |es| && es[n].key == k
    ensures forall j :: 0 <= j < n ==> es[j].key != k
    ensures Delete(es, k) == es[..n] + es[n + 1..]
  {
    if es[0].key == k {
      n := 0;
    } else {
      var t := es[1..];
      KeyInTail(es, k);
      var m := DeleteIsSplice(t, k);
      n := m + 1;
      assert Delete(es, k) == [es[0]] + Delete(t, k);
      SpliceCons(es, m);
    }
  }

  lemma KeyInTail<K, V>(es: seq<Entry<K, V>>, k: K)
    requires k in Keys(es) && es[0].key != k
    ensures k in Keys(es[1..])
  {
    assert Keys(es) == [es[0].key] + Keys(es[1..]);
  }

  /** Cutting entry `m` out of the tail and putting the head back cuts entry `m + 1`. */
  lemma SpliceCons<K, V>(es: seq<Entry<K, V>>, m: nat)
    requires m + 1 < |es|
    ensures [es[0]] + (es[1..][..m] + es[1..][m + 1..]) == es[..m + 1] + es[m + 2..]
  {
    assert es[..m + 1] == [es[0]] + es[1..][..m];
    assert es[m + 2..] == es[1..][m + 1..];
  }

  /** The plain map the list stands for. */
  function ToMap<K(==), V>(es: seq<Entry<K, V>>): map<K, V>
  {
    if |es| == 0 then map[] else ToMap(es[1..])[es[0].key := es[0].value]
  }

  /** Lookups in the list agree with the map view. */
  lemma {:induction false} ToMapAgrees<K, V>(es: seq<Entry<K, V>>, k: K)
    ensures k in ToMap(es) <==> k in Keys(es)
    ensures k in ToMap(es) ==> Get(es, k) == Some(ToMap(es)[k])
  {
    if |es| > 0 {
      assert Keys(es) == [es[0].key] + Keys(es[1..]);
      ToMapAgrees(es[1..], k);
    }
  }

  /** On the map view, `set` is map update ... */
  lemma SetAsMap<K, V>(es: seq<Entry<K, V>>, k: K, v: V)
    ensures ToMap(Set(es, k, v)) == ToMap(es)[k := v]
  {
    var m, s := ToMap(es), ToMap(Set(es, k, v));
    forall j
      ensures j in s <==> j in m[k := v]
      ensures j in s ==> s[j] == m[k := v][j]
    {
      ToMapAgrees(es, j);
      ToMapAgrees(Set(es, k, v), j);
      SetGet(es, k, v, j);
    }
  }

  /** ... and `delete` is key removal. */
  lemma {:induction false} DeleteAsMap<K, V>(es: seq<Entry<K, V>>, k: K)
    requires KeysUnique(es)
    ensures ToMap(Delete(es, k)) == ToMap(es) - {k}
  {
    if |es| > 0 {
      var e, t := es[0], es[1..];
      assert Keys(es) == [e.key] + Keys(t);
      DistinctCons(e.key, Keys(t));
      if e.key == k {
        ToMapAgrees(t, k);
        assert ToMap(t) == ToMap(t)[k := e.value] - {k};
      } else {
        DeleteAsMap(t, k);
        assert Delete(es, k) == [e] + Delete(t, k);
        assert ToMap(Delete(es, k)) == (ToMap(t) - {k})[e.key := e.value];
      }
    }
  }
}

=== FILE: nickname.dfy ===
/** The nickname generator of nicknameGenerator.js: an adjective and an animal name
    joined by one space. The two random draws become the indices `i` and `j`. */
module Nickname {
  import opened Wrappers

  const Adjectives: seq<string> := [
    "행복한", "신나는", "즐거운", "귀여운", "멋진",
    "따뜻한", "엉뚱한", "용감한", "지혜로운", "친절한",
    "활발한", "재미있는", "상냥한", "씩씩한", "기분좋은"
  ]

  const Nouns: seq<string> := [
    "판다", "코알라", "사자", "토끼", "고양이",
    "강아지", "펭귄", "돌고래", "기린", "여우",
    "다람쥐", "햄스터", "고래", "카피바라", "알파카"
  ]

  predicate NoSpace(w: string) {
    forall n :: 0 <= n < |w| ==> w[n] != ' '
  }

  predicate AllDistinct(ws: seq<string>) {
    forall a, b :: 0 <= a < b < |ws| ==> ws[a] != ws[b]
  }

  /** Both tables have fifteen words, none with a space, none twice. */
  lemma TablesWellFormed()
    ensures |Adjectives| == 15 && |Nouns| == 15
    ensures forall n :: 0 <= n < 15 ==> NoSpace(Adjectives[n]) && NoSpace(Nouns[n])
    ensures AllDistinct(Adjectives) && AllDistinct(Nouns)
  {
    AdjectivesWellFormed();
    NounsWellFormed();
  }

  lemma AdjectivesWellFormed()
    ensures |Adjectives| == 15
    ensures forall n :: 0 <= n < 15 ==> NoSpace(Adjectives[n])
    ensures AllDistinct(Adjectives)
  {
  }

  lemma NounsWellFormed()
    ensures |Nouns| == 15
    ensures forall n :: 0 <= n < 15 ==> NoSpace(Nouns[n])
    ensures AllDistinct(Nouns)
  {
  }

  /** `${adjective} ${noun}` for the drawn indices. */
  function Generate(i: nat, j: nat): (r: string)
    requires i < |Adjectives| && j < |Nouns|
    ensures CountSpaces(r) == 1
    ensures r == Adjectives[i] + " " + Nouns[j]
  {
    TablesWellFormed();
    var r := Adjectives[i] + " " + Nouns[j];
    SpacesOfJoin(Adjectives[i], Nouns[j]);
    r
  }

  function CountSpaces(s: string): nat {
    if |s| == 0 then 0 else (if s[0] == ' ' then 1 else 0) + CountSpaces(s[1..])
  }

  lemma {:induction false} CountSpacesNone(w: string)
    requires NoSpace(w)
    ensures CountSpaces(w) == 0
  {
    if |w| > 0 {
      CountSpacesNone(w[1..]);
    }
  }

  lemma {:induction false} CountSpacesAppend(a: string, b: string)
    ensures CountSpaces(a + b) == CountSpaces(a) + CountSpaces(b)
  {
    if |a| > 0 {
      assert (a + b)[1..] == a[1..] + b;
      CountSpacesAppend(a[1..], b);
    } else {
      assert a + b == b;
    }
  }

  lemma SpacesOfJoin(a: string, b: string)
    requires NoSpace(a) && NoSpace(b)
    ensures CountSpaces(a + " " + b) == 1
  {
    CountSpacesAppend(a + " ", b);
    CountSpacesAppend(a, " ");
    CountSpacesNone(a);
    CountSpacesNone(b);
  }

  /** Index of the first space, if any. */
  function SpaceIndex(s: string): (r: Option<nat>)
    ensures r.None? ==> NoSpace(s)
    ensures r.Some? ==> r.value < |s| && s[r.value] == ' ' && NoSpace(s[..r.value])
  {
    if |s| == 0 then None
    else if s[0] == ' ' then Some(0)
    else
      match SpaceIndex(s[1..])
      case None => None
      case Some(k) =>
        assert s[..k + 1] == [s[0]] + s[1..][..k];
        Some(k + 1)
  }

  /** Position of a word in a table, if present. */
  function IndexOf(ws: seq<string>, w: string): (r: Option<nat>)
    ensures r.Some? ==> r.value < |ws| && ws[r.value] == w
    ensures r.None? ==> w !in ws
  {
    if |ws| == 0 then None
    else if ws[0] == w then Some(0)
    else
      match IndexOf(ws[1..], w)
      case None => None
      case Some(k) => Some(k + 1)
  }

  /** Splitting at the first space and looking both halves up in the given tables. */
  function Split(adjs: seq<string>, nouns: seq<string>, s: string): Option<(nat, nat)>
  {
    match SpaceIndex(s)
    case None => None
    case Some(k) =>
      match (IndexOf(adjs, s[..k]), IndexOf(nouns, s[k + 1..]))
      case (Some(i), Some(j)) => Some((i, j))
      case _ => None
  }

  /** Recovers the draw behind a nickname, if it is one. */
  function Decode(s: string): Option<(nat, nat)> {
    Split(Adjectives, Nouns, s)
  }

  /** In a duplicate-free table a word is found at its own position. */
  lemma IndexOfDistinct(ws: seq<string>, n: nat)
    requires AllDistinct(ws) && n < |ws|
    ensures IndexOf(ws, ws[n]) == Some(n)
  {
  }

  /** With space-free, duplicate-free tables, splitting a joined pair finds the pair. */
  lemma SplitJoin(adjs: seq<string>, nouns: seq<string>, i: nat, j: nat)
    requires i < |adjs| && j < |nouns| && NoSpace(adjs[i])
    requires AllDistinct(adjs) && AllDistinct(nouns)
    ensures Split(adjs, nouns, adjs[i] + " " + nouns[j]) == Some((i, j))
  {
    var a, b := adjs[i], nouns[j];
    var s := a + " " + b;
    assert s[..|a|] == a;
    assert s[|a| + 1..] == b;
    assert s[|a|] == ' ';
    assert SpaceIndex(s) == Some(|a|);
    IndexOfDistinct(adjs, i);
    IndexOfDistinct(nouns, j);
  }

  /** Whatever splits into a pair is that pair joined by a space. */
  lemma JoinSplit(adjs: seq<string>, nouns: seq<string>, s: string)
    requires Split(adjs, nouns, s).Some?
    ensures var (i, j) := Split(adjs, nouns, s).value;
      i < |adjs| && j < |nouns| && adjs[i] + " " + nouns[j] == s
  {
    var k := SpaceIndex(s).value;
    assert s == s[..k] + " " + s[k + 1..];
  }

  /** Decoding a generated nickname gives back the indices it was generated from. */
  lemma DecodeGenerate(i: nat, j: nat)
    requires i < |Adjectives| && j < |Nouns|
    ensures Decode(Generate(i, j)) == Some((i, j))
  {
    TablesWellFormed();
    SplitJoin(Adjectives, Nouns, i, j);
  }

  /** Whatever decodes was generated from the decoded indices. */
  lemma GenerateDecode(s: string)
    requires Decode(s).Some?
    ensures var (i, j) := Decode(s).value;
      i < |Adjectives| && j < |Nouns| && Generate(i, j) == s
  {
    JoinSplit(Adjectives, Nouns, s);
  }

  /** Different draws give different nicknames. */
  lemma GenerateInjective(i: nat, j: nat, i': nat, j': nat)
    requires i < |Adjectives| && j < |Nouns| && i' < |Adjectives| && j' < |Nouns|
    requires Generate(i, j) == Generate(i', j')
    ensures i == i' && j == j'
  {
    DecodeGenerate(i, j);
    DecodeGenerate(i', j');
  }

  /** The nicknames with adjective `i` and one of the first `n` nouns. */
  function Row(i: nat, n: nat): set<string>
    requires i < |Adjectives| && n <= |Nouns|
  {
    if n == 0 then {} else Row(i, n - 1) + {Generate(i, n - 1)}
  }

  /** The nicknames with one of the first `m` adjectives. */
  function Grid(m: nat): set<string>
    requires m <= |Adjectives|
  {
    if m == 0 then {} else Grid(m - 1) + Row(m - 1, |Nouns|)
  }

  lemma {:induction false} RowMembers(i: nat, n: nat, s: string)
    requires i < |Adjectives| && n <= |Nouns|
    ensures s in Row(i, n) <==> exists j :: 0 <= j < n && s == Generate(i, j)
  {
    if n > 0 {
      RowMembers(i, n - 1, s);
    }
  }

  lemma {:induction false} RowSize(i: nat, n: nat)
    requires i < |Adjectives| && n <= |Nouns|
    ensures |Row(i, n)| == n
  {
    if n > 0 {
      RowSize(i, n - 1);
      var s := Generate(i, n - 1);
      RowMembers(i, n - 1, s);
      forall j | 0 <= j < n - 1
        ensures s != Generate(i, j)
      {
        if s == Generate(i, j) {
          GenerateInjective(i, j, i, n - 1);
        }
      }
    }
  }

  lemma {:induction false} GridMembers(m: nat, s: string)
    requires m <= |Adjectives|
    ensures s in Grid(m) <==> exists i, j :: 0 <= i < m && 0 <= j < |Nouns| && s == Generate(i, j)
  {
    if m > 0 {
      GridMembers(m - 1, s);
      RowMembers(m - 1, |Nouns|, s);
    }
  }

  /** Row `i` shares no nickname with the rows before it. */
  lemma RowNotInGrid(i: nat)
    requires i < |Adjectives|
    ensures Grid(i) !! Row(i, |Nouns|)
  {
    var row, prev := Row(i, |Nouns|), Grid(i);
    forall s | s in row
      ensures s !in prev
    {
      RowMembers(i, |Nouns|, s);
      GridMembers(i, s);
      var j :| 0 <= j < |Nouns| && s == Generate(i, j);
      forall i', j' | 0 <= i' < i && 0 <= j' < |Nouns|
        ensures s != Generate(i', j')
      {
        if s == Generate(i', j') {
          GenerateInjective(i, j, i', j');
        }
      }
    }
  }

  lemma {:induction false} GridSize(m: nat)
    requires m <= |Adjectives|
    ensures |Grid(m)| == m * |Nouns|
  {
    if m > 0 {
      GridSize(m - 1);
      RowSize(m - 1, |Nouns|);
      RowNotInGrid(m - 1);
    }
  }

  /** The generator can produce exactly 225 different nicknames. */
  lemma NicknameCount()
    ensures |set i, j | 0 <= i < |Adjectives| && 0 <= j < |Nouns| :: Generate(i, j)| == 225
  {
    var all := set i, j | 0 <= i < |Adjectives| && 0 <= j < |Nouns| :: Generate(i, j);
    forall s
      ensures s in all <==> s in Grid(|Adjectives|)
    {
      GridMembers(|Adjectives|, s);
    }
    assert all == Grid(|Adjectives|);
    GridSize(|Adjectives|);
    TablesWellFormed();
  }
}

=== FILE: post_store.dfy ===
/** The REST handlers of backend/server.mjs as pure operations on the JSON document
    `{posts, lastId}` that the server keeps in data/posts.json. Each handler reads the
    document, possibly writes it back, and answers with a status and a body; here the
    read and the write are the argument and the result, and the answer is returned
    alongside the new document. */
module PostStore {
  import opened Wrappers

  /** The drawing of a post: Excalidraw's element list and app state, kept as opaque
      serialized JSON. */
  datatype Content = Content(elements: string, appState: string)

  /** One entry of `posts`. `date` is the creation date string and `updatedAt` the ISO
      time of the last edit, absent until the post is first edited. */
  datatype Post = Post(
    id: int,
    title: string,
    author: string,
    views: int,
    date: string,
    content: Content,
    updatedAt: Option<string>
  )

  /** The whole persisted document. */
  datatype Store = Store(posts: seq<Post>, lastId: int)

  datatype Body =
    | PostList(posts: seq<Post>)
    | PostBody(post: Post)
    | Message(text: string)
    | Error(text: string)

  datatype Response = Response(status: int, body: Body)

  /** What a handler leaves behind: the document after the request and the answer sent. */
  datatype Outcome = Outcome(store: Store, response: Response)

  const OK := 200
  const CREATED := 201
  const NOT_FOUND := 404

  const NotFoundText := "게시글을 찾을 수 없습니다."
  const DeletedText := "게시글이 삭제되었습니다."

  /** The document written when posts.json does not exist yet. */
  const Initial := Store([], 0)

  /** `posts[0]?.id || 0`: the id of the head post, or 0 when there is none (a head id
      of 0 would also give 0, which is the same value). */
  function HeadId(posts: seq<Post>): int {
    if |posts| == 0 then 0 else posts[0].id
  }

  predicate HasId(posts: seq<Post>, id: int) {
    exists k :: 0 <= k < |posts| && posts[k].id == id
  }

  /** Ids strictly decrease from the front: the newest post comes first. */
  predicate NewestFirst(posts: seq<Post>) {
    forall a, b :: 0 <= a < b < |posts| ==> posts[a].id > posts[b].id
  }

  /** The invariant every document reachable from `Initial` satisfies. */
  predicate Valid(s: Store) {
    && s.lastId == HeadId(s.posts)
    && NewestFirst(s.posts)
    && forall k :: 0 <= k < |s.posts| ==> s.posts[k].id > 0
  }

  /** `posts.findIndex(p => p.id === id)`, with -1 as None; `posts.find` looks at the
      same element. */
  function FindIndex(posts: seq<Post>, id: int): (r: Option<nat>)
    ensures r.None? <==> !HasId(posts, id)
    ensures r.Some? ==> r.value < |posts| && posts[r.value].id == id
    ensures r.Some? ==> forall k :: 0 <= k < r.value ==> posts[k].id != id
  {
    if |posts| == 0 then None
    else if posts[0].id == id then Some(0)
    else
      match FindIndex(posts[1..], id)
      case None =>
        assert forall k :: 1 <= k < |posts| ==> posts[k] == posts[1..][k - 1];
        None
      case Some(k) => Some(k + 1)
  }

  /** In a newest-first list an id occurs at most once, so the first match is the only one. */
  lemma FindIndexUnique(posts: seq<Post>, id: int, k: nat)
    requires NewestFirst(posts)
    requires k < |posts| && posts[k].id == id
    ensures FindIndex(posts, id) == Some(k)
  {
  }

  /** In a newest-first list the index `FindIndex` returns is the only one carrying the id. */
  lemma OnlyMatch(posts: seq<Post>, id: int, i: nat)
    requires FindIndex(posts, id) == Some(i)
    ensures NewestFirst(posts) ==> forall k :: 0 <= k < |posts| && posts[k].id == id ==> k == i
  {
    if NewestFirst(posts) {
      forall k | 0 <= k < |posts| && posts[k].id == id
        ensures k == i
      {
        FindIndexUnique(posts, id, k);
      }
    }
  }

  function NotFound(s: Store): Outcome {
    Outcome(s, Response(NOT_FOUND, Error(NotFoundText)))
  }

  /** GET /api/posts: the list as stored, newest first; nothing is written. */
  function ListPosts(s: Store): (o: Outcome)
    ensures o.store == s
    ensures o.response.status == OK && o.response.body == PostList(s.posts)
  {
    Outcome(s, Response(OK, PostList(s.posts)))
  }

  /** GET /api/posts/:id: counts one view of the post and returns it. */
  function GetPost(s: Store, id: int): (o: Outcome)
    ensures o.response.status == NOT_FOUND <==> !HasId(s.posts, id)
    ensures !HasId(s.posts, id) ==> o.store == s
    ensures HasId(s.posts, id) ==> o.store.lastId == HeadId(o.store.posts)
    ensures |o.store.posts| == |s.posts|
    ensures Valid(s) ==> Valid(o.store) && o.store.lastId == s.lastId
    ensures Valid(s) ==> forall k :: 0 <= k < |s.posts| ==>
      o.store.posts[k] ==
        if s.posts[k].id == id then s.posts[k].(views := s.posts[k].views + 1) else s.posts[k]
    ensures Valid(s) && HasId(s.posts, id) ==>
      o.response.status == OK && o.response.body.PostBody? &&
      o.response.body.post.id == id && o.response.body.post in o.store.posts
  {
    match FindIndex(s.posts, id)
    case None => NotFound(s)
    case Some(i) =>
      var p := s.posts[i].(views := s.posts[i].views + 1);
      var posts := s.posts[i := p];
      OnlyMatch(s.posts, id, i);
      Outcome(Store(posts, HeadId(posts)), Response(OK, PostBody(p)))
  }

  /** POST /api/posts: the new post gets id `lastId + 1`, no views and the given creation
      date, and goes to the front. */
  function CreatePost(s: Store, title: string, author: string, content: Content, date: string): (o: Outcome)
    ensures |o.store.posts| == |s.posts| + 1 && o.store.posts[1..] == s.posts
    ensures var p := o.store.posts[0];
      && p.id == s.lastId + 1 && p.views == 0 && p.date == date && p.updatedAt == None
      && p.title == title && p.author == author && p.content == content
    ensures o.store.lastId == o.store.posts[0].id
    ensures o.response == Response(CREATED, PostBody(o.store.posts[0]))
    ensures Valid(s) ==> Valid(o.store) && !HasId(s.posts, o.store.lastId)
  {
    var p := Post(s.lastId + 1, title, author, 0, date, content, None);
    Outcome(Store([p] + s.posts, p.id), Response(CREATED, PostBody(p)))
  }

  /** The post after PUT: the request's title, author and content and an edit time over
      the stored post; id, views and creation date are kept. */
  predicate EditedFrom(before: Post, after: Post, title: string, author: string, content: Content, now: string) {
    && after.id == before.id && after.views == before.views && after.date == before.date
    && after.title == title && after.author == author && after.content == content
    && after.updatedAt == Some(now)
  }

  /** PUT /api/posts/:id: replaces title, author and content in place and stamps the edit
      time; every other field and the post's position stay. */
  function UpdatePost(s: Store, id: int, title: string, author: string, content: Content, now: string): (o: Outcome)
    ensures o.response.status == NOT_FOUND <==> !HasId(s.posts, id)
    ensures !HasId(s.posts, id) ==> o.store == s
    ensures HasId(s.posts, id) ==> o.store.lastId == HeadId(o.store.posts)
    ensures |o.store.posts| == |s.posts|
    ensures Valid(s) ==> Valid(o.store) && o.store.lastId == s.lastId
    ensures Valid(s) ==> forall k :: 0 <= k < |s.posts| ==>
      if s.posts[k].id == id then EditedFrom(s.posts[k], o.store.posts[k], title, author, content, now)
      else o.store.posts[k] == s.posts[k]
    ensures Valid(s) && HasId(s.posts, id) ==>
      o.response.status == OK && o.response.body.PostBody? &&
      o.response.body.post.id == id && o.response.body.post in o.store.posts
  {
    match FindIndex(s.posts, id)
    case None => NotFound(s)
    case Some(i) =>
      var p := s.posts[i].(title := title, author := author, content := content, updatedAt := Some(now));
      var posts := s.posts[i := p];
      OnlyMatch(s.posts, id, i);
      Outcome(Store(posts, HeadId(posts)), Response(OK, PostBody(p)))
  }

  /** Reference definition of deletion: keep exactly the posts whose id differs, in order. */
  function Without(posts: seq<Post>, id: int): seq<Post>
  {
    if |posts| == 0 then []
    else if posts[0].id == id then Without(posts[1..], id)
    else [posts[0]] + Without(posts[1..], id)
  }

  /** The reference deletion keeps a post iff it was there and carries another id. */
  lemma {:induction false} WithoutMembers(posts: seq<Post>, id: int)
    ensures forall p :: p in Without(posts, id) <==> p in posts && p.id != id
  {
    if |posts| > 0 {
      WithoutMembers(posts[1..], id);
      assert posts == [posts[0]] + posts[1..];
    }
  }

  /** Splicing out the first post carrying `id` from a newest-first list removes every post
      with that id and nothing else. */
  lemma {:induction false} SpliceIsWithout(posts: seq<Post>, id: int, i: nat)
    requires NewestFirst(posts)
    requires FindIndex(posts, id) == Some(i)
    ensures posts[..i] + posts[i + 1..] == Without(posts, id)
  {
    var tail := posts[1..];
    NewestFirstTail(posts);
    if i == 0 {
      SpliceHead(posts);
    } else {
      assert posts[0].id != id;
      assert Without(posts, id) == [posts[0]] + Without(tail, id);
      assert FindIndex(tail, id) == Some(i - 1);
      SpliceIsWithout(tail, id, i - 1);
      assert posts[..i] == [posts[0]] + tail[..i - 1];
      assert posts[i + 1..] == tail[i..];
    }
  }

  /** Removing the head of a newest-first list leaves exactly the posts without its id. */
  lemma SpliceHead(posts: seq<Post>)
    requires NewestFirst(posts) && |posts| > 0
    ensures posts[..0] + posts[1..] == Without(posts, posts[0].id)
  {
    HeadIdAbsentFromTail(posts);
    WithoutAbsent(posts[1..], posts[0].id);
    assert posts[..0] + posts[1..] == posts[1..];
  }

  lemma NewestFirstTail(posts: seq<Post>)
    requires NewestFirst(posts) && |posts| > 0
    ensures NewestFirst(posts[1..])
  {
    var tail := posts[1..];
    forall a, b | 0 <= a < b < |tail|
      ensures tail[a].id > tail[b].id
    {
      assert tail[a] == posts[a + 1] && tail[b] == posts[b + 1];
    }
  }

  lemma HeadIdAbsentFromTail(posts: seq<Post>)
    requires NewestFirst(posts) && |posts| > 0
    ensures forall k :: 0 <= k < |posts[1..]| ==> posts[1..][k].id != posts[0].id
  {
    forall k | 0 <= k < |posts[1..]|
      ensures posts[1..][k].id != posts[0].id
    {
      assert posts[1..][k] == posts[k + 1];
    }
  }

  /** Filtering out an id nobody carries changes nothing. */
  lemma {:induction false} WithoutAbsent(posts: seq<Post>, id: int)
    requires forall k :: 0 <= k < |posts| ==> posts[k].id != id
    ensures Without(posts, id) == posts
  {
    if |posts| > 0 {
      WithoutAbsent(posts[1..], id);
    }
  }

  /** DELETE /api/posts/:id: splices the post out and recomputes `lastId` from the new head. */
  function DeletePost(s: Store, id: int): (o: Outcome)
    ensures o.response.status == NOT_FOUND <==> !HasId(s.posts, id)
    ensures !HasId(s.posts, id) ==> o.store == s
    ensures HasId(s.posts, id) ==>
      && o.store.lastId == HeadId(o.store.posts)
      && |o.store.posts| == |s.posts| - 1
      && o.response == Response(OK, Message(DeletedText))
    ensures FindIndex(s.posts, id).Some? ==>
      var i := FindIndex(s.posts, id).value;
      o.store.posts == s.posts[..i] + s.posts[i + 1..]
    ensures Valid(s) ==> Valid(o.store)
  {
    match FindIndex(s.posts, id)
    case None => NotFound(s)
    case Some(i) =>
      var posts := s.posts[..i] + s.posts[i + 1..];
      assert forall k :: 0 <= k < |posts| ==> posts[k] == s.posts[if k < i then k else k + 1];
      Outcome(Store(posts, HeadId(posts)), Response(OK, Message(DeletedText)))
  }

  /** On a valid document, deletion removes exactly the post with that id and keeps the
      others in their order (`Without` is the reference), and a missing id removes nothing. */
  lemma DeleteRemovesExactly(s: Store, id: int)
    requires Valid(s)
    ensures var after := DeletePost(s, id).store.posts;
      && after == Without(s.posts, id)
      && !HasId(after, id)
      && forall p :: p in after <==> p in s.posts && p.id != id
  {
    WithoutMembers(s.posts, id);
    match FindIndex(s.posts, id)
    case None => WithoutAbsent(s.posts, id);
    case Some(i) => SpliceIsWithout(s.posts, id, i);
  }

  /** One request to the REST interface; clock values arrive with the request. */
  datatype Request =
    | List
    | Get(id: int)
    | Create(title: string, author: string, content: Content, date: string)
    | Update(id: int, title: string, author: string, content: Content, now: string)
    | Delete(id: int)

  function Handle(s: Store, req: Request): Outcome {
    match req
    case List => ListPosts(s)
    case Get(id) => GetPost(s, id)
    case Create(t, a, c, d) => CreatePost(s, t, a, c, d)
    case Update(id, t, a, c, n) => UpdatePost(s, id, t, a, c, n)
    case Delete(id) => DeletePost(s, id)
  }

  /** The document after serving the requests one after another. */
  function Replay(s: Store, reqs: seq<Request>): Store
    decreases |reqs|
  {
    if |reqs| == 0 then s else Replay(Handle(s, reqs[0]).store, reqs[1..])
  }

  /** Every document the server can reach from the initial file is valid: ids newest-first,
      positive, and `lastId` equal to the head id. */
  lemma {:induction false} ReplayKeepsValid(s: Store, reqs: seq<Request>)
    requires Valid(s)
    ensures Valid(Replay(s, reqs))
    decreases |reqs|
  {
    if |reqs| > 0 {
      ReplayKeepsValid(Handle(s, reqs[0]).store, reqs[1..]);
    }
  }

  lemma ReachableIsValid(reqs: seq<Request>)
    ensures Valid(Replay(Initial, reqs))
  {
    ReplayKeepsValid(Initial, reqs);
  }

  /** Deleting the post just created restores the document exactly. */
  lemma DeleteUndoesCreate(s: Store, title: string, author: string, content: Content, date: string)
    requires Valid(s)
    ensures var c := CreatePost(s, title, author, content, date).store;
      DeletePost(c, s.lastId + 1).store == s
  {
    var c := CreatePost(s, title, author, content, date).store;
    FindIndexUnique(c.posts, s.lastId + 1, 0);
    assert c.posts[..0] + c.posts[1..] == s.posts;
  }

  /** Deleting the newest post lowers `lastId` to the next post's id (or 0), so the next
      create hands out an id no larger than the deleted one, and the very same id exactly
      when the deleted post was numbered one above its successor. */
  lemma DeleteNewestRewindsIds(s: Store, title: string, author: string, content: Content, date: string)
    requires Valid(s) && |s.posts| > 0
    ensures var d := s.posts[0].id;
      var after := DeletePost(s, d).store;
      var next := CreatePost(after, title, author, content, date).store.posts[0].id;
      && after.lastId == HeadId(s.posts[1..])
      && next <= d
      && (next == d <==> d == HeadId(s.posts[1..]) + 1)
  {
    var d := s.posts[0].id;
    FindIndexUnique(s.posts, d, 0);
    assert s.posts[..0] + s.posts[1..] == s.posts[1..];
    if |s.posts| > 1 {
      assert s.posts[0].id > s.posts[1].id;
    }
  }

  /** A concrete case: create, delete it, create again, and the second post gets id 1 too. */
  lemma IdReusedAfterDelete(t: string, a: string, c: Content, d1: string, d2: string)
    ensures var s1 := CreatePost(Initial, t, a, c, d1).store;
      var s2 := DeletePost(s1, 1).store;
      var s3 := CreatePost(s2, t, a, c, d2).store;
      s1.posts[0].id == 1 && s2 == Initial && s3.posts[0].id == 1
  {
    DeleteUndoesCreate(Initial, t, a, c, d1);
  }
}

=== FILE: wrappers.dfy ===
/** The Some/None datatype used for lookups that may find nothing
    (`Array.prototype.find`, `findIndex` returning -1, `Map.prototype.get`). */
module Wrappers {

  datatype Option<+T> = None | Some(value: T)
}
